=== FILE: README.md ===
# LWC logger — a Dafny model

This project models `LWCLogger`, the client-side logging facade of a
Salesforce Lightning Web Components logger framework
(`force-app/main/default/lwc/logger/logger.js`). The logger keeps three
fields: `transactionId`, `componentName` and `isInitialized`. Around them it
has these operations:

- `init` fetches a transaction id once, or invents a `LWC_`-prefixed one when
  the remote call fails.
- `log` makes one remote `logFromComponent` call. When that call fails it
  prints a fallback record to the console instead of failing.
- five level wrappers, `debug` to `fatal`.
- `logError` and `logPerformance` build fixed messages and payloads.
- `logSync` starts a log without waiting for it.

The model is functional. `Logger.LoggerState` is an immutable record. Each
method is a pure function from a state and a `Logger.World` to a
`Logger.Step`, which holds the new state, the trace of observable events, and
how the method's promise settles. A `World` holds what the surroundings would
supply during one call: the replies of the two Apex calls, `Date.now()`, the
random suffix, `new Date().toISOString()` and `JSON.stringify`. Trace events
are the two remote calls and the `console.error` / `console.log` writes.

Modules:

- `Options`: `Option`, standing for JavaScript `null`.
- `Decimal`: JavaScript's rendering of integers as decimal text, with its inverse.
- `JsValues`: the JavaScript values the logger handles. Covers truthiness,
  default parameters, property reads that throw on `null`/`undefined`,
  template rendering, and object literals with spread.
- `Levels`: the five level names.
- `Logger`: the class's state and methods.
- `Sessions`: the logger driven by a sequence of awaited calls. This is where
  the "initialise once" and "delivered in order" properties are proved.
- `Scenarios`: the logger's behaviour on particular inputs.

The model follows the source where its behaviour may surprise a caller:

- `init` does not share an in-flight promise. Two interleaved first calls can
  therefore both call `getTransactionId`. The model is sequential and claims
  at-most-once initialisation only for awaited call sequences.
- `logSync` cannot be awaited: it returns while its `log` is suspended at its
  first remote call. `[logSync, info]` from a fresh logger can therefore call
  `getTransactionId` twice, and a `setComponentName` issued right after
  `logSync` can retag its request. The session properties
  (`Sessions.Awaited`) allow `logSync` only as the last call.
- `logError(null)` and `logError(undefined)` reject with a TypeError, because
  `error.message` is read before anything is logged (`Logger.LogError`). Every
  other logging path always fulfils.
- `additionalData` is read for truthiness. `0`, `""` and `false` are
  therefore sent as `null`, while the fallback record keeps the raw value
  (`Scenarios.FalsyPayloadDropped`).
- The generic `log` forwards any level string unchecked (`Scenarios.UnknownLevelForwarded`).

## Model

| member | source | states |
|---|---|---|
| Logger.Fresh | force-app/main/default/lwc/logger/logger.js:6-10 | a new logger has no transaction id, component "Unknown", is not initialized, and satisfies the state invariant |
| Logger.Init | force-app/main/default/lwc/logger/logger.js:12-24 | init never fails and always ends initialized with an id; it never sends a log request; an initialized logger is left alone with no remote call; otherwise exactly one getTransactionId call, made first and followed by the "Failed to get transaction ID:" report exactly when it is rejected, and nothing else, the returned id on success, on failure a fallback id that parses back to the clock reading and suffix; the component name is untouched and the invariant kept |
| Logger.InitIdempotent | force-app/main/default/lwc/logger/logger.js:13 | a second init makes no call and changes nothing, whatever the remote would answer |
| Logger.FallbackTransactionId | force-app/main/default/lwc/logger/logger.js:21 | the fallback id starts with "LWC_" and is longer than the prefix |
| Logger.FallbackIdRoundTrip | force-app/main/default/lwc/logger/logger.js:21 | the fallback id "LWC_" + Date.now() + "_" + suffix splits back into exactly that clock reading and suffix |
| Logger.ParsedFallbackId | force-app/main/default/lwc/logger/logger.js:21 | conversely, every string that parses as a fallback id is the id built from its parts |
| Logger.InitTrace | force-app/main/default/lwc/logger/logger.js:15-19 | a first init's events: the getTransactionId call alone on success, followed by the "Failed to get transaction ID:" report on failure; never a log request |
| Logger.DeliveryTrace | force-app/main/default/lwc/logger/logger.js:36-49 | one delivery attempt's events: the logFromComponent request alone on success, followed by the "Logging failed:" report and the fallback record on failure; never an id fetch |
| Logger.SetComponentName | force-app/main/default/lwc/logger/logger.js:26-28 | sets the component tag and leaves transaction id and initialization flag unchanged |
| Logger.Payload | force-app/main/default/lwc/logger/logger.js:43 | the additionalData sent is null exactly when the value is falsy, otherwise its serialization |
| Logger.Log | force-app/main/default/lwc/logger/logger.js:30-50 | log always fulfils; its state is what init would leave; getTransactionId is called only if not yet initialized, and then it is the first event and no logFromComponent request precedes it; exactly one logFromComponent request with the current component, level, message, recordId and payload; exactly one fallback record (level, component, message, recordId, raw data) iff that request failed, none other; the whole trace is init's events, then the request, then on failure the "Logging failed:" report followed by the fallback record |
| Logger.LogIgnoresSession | force-app/main/default/lwc/logger/logger.js:36-49 | the request and the fallback output depend on the component name only, not on the transaction state |
| Logger.Debug | force-app/main/default/lwc/logger/logger.js:52-54 | debug is log with level "DEBUG" and the arguments unchanged |
| Logger.Info | force-app/main/default/lwc/logger/logger.js:56-58 | info is log with level "INFO" and the arguments unchanged |
| Logger.Warn | force-app/main/default/lwc/logger/logger.js:60-62 | warn is log with level "WARN" and the arguments unchanged |
| Logger.Error | force-app/main/default/lwc/logger/logger.js:64-66 | error is log with level "ERROR" and the arguments unchanged |
| Logger.Fatal | force-app/main/default/lwc/logger/logger.js:68-70 | fatal is log with level "FATAL" and the arguments unchanged |
| Logger.ErrorMessage | force-app/main/default/lwc/logger/logger.js:80 | the text is "Error in " + context + ": " + message for a string context and message; a missing message renders as "undefined" and a null context (which the default does not replace) as "null" |
| Logger.ErrorInfo | force-app/main/default/lwc/logger/logger.js:74-79 | the error payload has exactly the keys message, stack, context, timestamp in that order, holding the given values |
| Logger.LogError | force-app/main/default/lwc/logger/logger.js:73-81 | rejects, with no state change and no event, iff the error is null or undefined; otherwise one ERROR request with the synthesized message, the recordId and the serialized error payload, context defaulting to "", a fallback record iff delivery fails, any getTransactionId call before the request, and state as init leaves it; when it fulfils it is exactly log at "ERROR" with that message and payload, so it has log's whole trace |
| Logger.PerformanceMessage | force-app/main/default/lwc/logger/logger.js:91 | for a string operation and integral duration the text is "Performance: " + operation + " took " + decimal duration + "ms"; an omitted duration gives "took undefinedms", a null one "took nullms", and omitting both gives "Performance: undefined took undefinedms" |
| Logger.PerformanceData | force-app/main/default/lwc/logger/logger.js:85-90 | the payload's first keys are operation, duration, timestamp; keys stay distinct; its keys are exactly those three plus the caller's |
| Logger.MeasuredFields | force-app/main/default/lwc/logger/logger.js:86-88 | the measured fields are operation, duration, timestamp in that order, holding the given values |
| Logger.PerformanceDataFind | force-app/main/default/lwc/logger/logger.js:85-90 | every payload key holds the caller's value when the caller supplies that key, the measured value otherwise |
| Logger.LogPerformance | force-app/main/default/lwc/logger/logger.js:84-92 | always fulfils; one INFO request with null recordId, the synthesized message and the serialized payload; a fallback record iff delivery fails; any getTransactionId call before the request; it is exactly log at "INFO" with that message and payload, so it has log's whole trace |
| Logger.LogSync | force-app/main/default/lwc/logger/logger.js:95-100 | returns without failure and has exactly log's effect: the catch handler never fires because log never rejects |
| JsValues.Truthy | force-app/main/default/lwc/logger/logger.js:43 | a value is falsy exactly when it is undefined, null, false, 0 or the empty string; every object is truthy |
| JsValues.Render | force-app/main/default/lwc/logger/logger.js:91 | a template literal renders undefined as "undefined", null as "null", booleans as "true"/"false", a string as itself, an object as "[object Object]", and an integer as its JavaScript decimal text, which reads back as the number when non-negative |
| JsValues.Defaulted | force-app/main/default/lwc/logger/logger.js:30 | a default parameter replaces undefined only; every other value, null included, is kept |
| JsValues.Property | force-app/main/default/lwc/logger/logger.js:75-76 | a property read throws exactly on null and undefined; on an object it yields the field's value or undefined when absent |
| JsValues.Put | force-app/main/default/lwc/logger/logger.js:85-90 | assigning a key in an object literal makes it read back as the new value, leaves other keys' values alone, keeps an existing key in place and appends a new key last |
| JsValues.Spread | force-app/main/default/lwc/logger/logger.js:89 | spreading an object contributes its fields; null, undefined, booleans and numbers contribute nothing |
| JsValues.Merge | force-app/main/default/lwc/logger/logger.js:85-90 | the object literal `{...base, ...extra}` has at least base's fields and at most one more per field of extra; which keys and values it holds is stated by MergeFind and MergeKeys |
| JsValues.MergeFind | force-app/main/default/lwc/logger/logger.js:85-90 | in `{...base, ...extra}` a key reads from extra (its last occurrence) when extra has it, and from base otherwise |
| JsValues.MergeKeys | force-app/main/default/lwc/logger/logger.js:85-90 | merging keeps base's keys first and in order and has exactly the union of keys |
| JsValues.MergeKeysDistinct | force-app/main/default/lwc/logger/logger.js:85-90 | merging never duplicates a key of a base whose keys are distinct |
| Decimal.FromNat | force-app/main/default/lwc/logger/logger.js:21 | the clock reading in the fallback id renders as a canonical numeral: at least one digit, only digits, no leading zero |
| Decimal.FromInt | force-app/main/default/lwc/logger/logger.js:91 | an integral number renders as canonical digits, with a leading minus exactly when negative; a non-negative number renders exactly as its numeral, and the digits read back as the number's magnitude |
| Decimal.ToNatFromNat | force-app/main/default/lwc/logger/logger.js:21 | reading back the decimal rendering of a clock reading gives the reading |
| Decimal.FromNatToNat | force-app/main/default/lwc/logger/logger.js:21 | every canonical numeral is the rendering of its value, so rendering is a bijection onto canonical numerals |
| Levels.Name | force-app/main/default/lwc/logger/logger.js:52-70 | each level wrapper passes a non-empty upper-case level string; ParseName pins each to its exact text and shows the five are distinct |
| Levels.Parse | force-app/main/default/lwc/logger/logger.js:52-70 | a string that names a level is exactly that level's name (matching is case-sensitive) |
| Levels.ParseName | force-app/main/default/lwc/logger/logger.js:52-70 | the five level names are distinct and each reads back as its level |
| Sessions.ApplyState | force-app/main/default/lwc/logger/logger.js:12-100 | per call: it rejects only for logError of null/undefined; it changes the component name only for setComponentName; it initializes iff it reaches init; it keeps an established id and the state invariant |
| Sessions.ApplyTrace | force-app/main/default/lwc/logger/logger.js:12-100 | per call: one getTransactionId call iff it is the first to reach init; its requests are those read off the call and the current component name |
| Sessions.LevelCallFacts | force-app/main/default/lwc/logger/logger.js:52-70 | each level wrapper is log at that level's name |
| Sessions.RunInitializesOnce | force-app/main/default/lwc/logger/logger.js:12-34 | over any sequence of awaited calls (logSync only last) getTransactionId is called at most once; exactly once from an uninitialized logger iff some call reaches init; an established id never changes; the invariant holds throughout |
| Sessions.RunDeliversInOrder | force-app/main/default/lwc/logger/logger.js:26-50 | awaited calls (logSync only last) reach the endpoint in issuance order, one request per logging call, each tagged with the component name set before it, whatever the remote replies |
| Scenarios.OfflineInfoFallsBack | force-app/main/default/lwc/logger/logger.js:18-22 | with the endpoint down, info("hello") on a fresh logger fulfils, gets an "LWC_" id, sends one request with null data and leaves one INFO fallback record |
| Scenarios.ComponentTagging | force-app/main/default/lwc/logger/logger.js:26-28 | after setComponentName("Widget") a warn request carries component "Widget" and level "WARN" |
| Scenarios.UnknownLevelForwarded | force-app/main/default/lwc/logger/logger.js:40 | log forwards a level that is none of the five ("TRACE") unchanged |
| Scenarios.FalsyPayloadDropped | force-app/main/default/lwc/logger/logger.js:43-48 | a payload of 0 is sent as null but kept as 0 in the fallback record |
| Scenarios.LogErrorMessage | force-app/main/default/lwc/logger/logger.js:73-81 | an error with a string message yields one ERROR request "Error in <context>: <message>" with the given recordId |
| Scenarios.BoomMessage | force-app/main/default/lwc/logger/logger.js:75 | the message property of an error built from "boom" reads as "boom" |
| Scenarios.LogErrorBoom | force-app/main/default/lwc/logger/logger.js:80 | logError of an error "boom" in context "ctx" sends "Error in ctx: boom" |
| Scenarios.LogErrorDefaultContext | force-app/main/default/lwc/logger/logger.js:73 | without a context the message is "Error in : " + message |
| Scenarios.LogErrorUndefinedRejects | force-app/main/default/lwc/logger/logger.js:75 | logError(undefined) rejects with a TypeError and leaves state and trace untouched |
| Scenarios.LogPerformanceLoad | force-app/main/default/lwc/logger/logger.js:91 | logPerformance("load", 123) sends "Performance: load took 123ms" at INFO with null recordId |
| Scenarios.CallerFieldOverrides | force-app/main/default/lwc/logger/logger.js:85-90 | a caller field "duration" overrides the measured duration but keeps its place; the keys stay operation, duration, timestamp |

## Left out

- Remote calls: the Apex `getTransactionId` and `logFromComponent` (lines 2-3) are replaced by the replies held in `World`. The Apex class behind them is not part of this model. `getTransactionId` is taken to resolve to a string; a `null` or non-string id is not modelled.
- Asynchrony: each call is modelled as running to completion before the next one starts. Interleaved calls are not modelled, including two first calls that both reach `getTransactionId`. No ordering is claimed for calls that are not awaited.
- Sessions.RunInitializesOnce and Sessions.RunDeliversInOrder: say nothing about a `logSync` followed by further calls. Its `log` suspends at `getTransactionId` or `logFromComponent`, so later calls interleave with it and can repeat the id fetch or change its component tag.
- Logger.LogSync: modelled as if the detached `log` finishes before anything else happens. Only its effects and its settling are stated, not when they happen. This holds when nothing is called after it.
- Console output: the error objects passed to `console.error` are reduced to a reason string. The fallback `console.log` is reduced to the fields of its record; the formatting of its first line is not modelled.
- Clock, randomness and timestamps: `Date.now()`, `Math.random().toString(36).substr(2, 9)` and `new Date().toISOString()` are opaque values in `World`. Only the `LWC_` prefix and the layout of the fallback id are specified.
- Serialization: `JSON.stringify` is an opaque total function in `World`. A stringify that throws (cycles, BigInt) cannot arise for the modelled values and is not modelled. In the source it would fall into the fallback path.
- Numbers: only integers are modelled, with no floating point. Decimal.FromInt matches JavaScript only for magnitudes below 10^21.
- Object semantics: properties keep insertion order, but JavaScript lists array-index keys first. Inherited properties are not modelled (for example `Error.prototype.message`), and neither are getters or properties of primitive wrappers. JsValues.Render gives every object "[object Object]", so a custom `toString` is not modelled. Spreading a string yields one field per Dafny character, not per UTF-16 code unit.
- Property enumerability: every field of a modelled object is own and enumerable. JavaScript's `new Error(...)` has a non-enumerable `message` (and V8 a non-enumerable `stack`), so spreading an Error into `logPerformance`'s payload copies nothing, whereas JsValues.Spread copies every field of the object that stands for it.
- Argument types: `level`, `message`, the component name and `recordId` are strings (or `null` for the record id). JavaScript would accept any value there.
- The module singleton and its forwarding exports (lines 104-118): they only delegate.
- `force-app/main/default/lwc/lwcLogger/lwcLogger.js` is not part of this model. It is a demo component made of lifecycle hooks, browser APIs and simulated fetches.

=== FILE: decimal.dfy ===
/**
 This module renders integers the way JavaScript's `String(n)` does for an
 integral number below 10^21 in magnitude: optional minus sign, then decimal
 digits without leading zeros. It also parses such digit strings back, which
 pins the rendering down as a bijection onto canonical numerals.
 */
module Decimal {

  predicate IsDigit(c: char) {
    '0' <= c <= '9'
  }

  predicate AllDigits(s: string) {
    forall i :: 0 <= i < |s| ==> IsDigit(s[i])
  }

  /** A canonical numeral: at least one digit and no leading zero. */
  predicate Canonical(s: string) {
    |s| > 0 && AllDigits(s) && (|s| > 1 ==> s[0] != '0')
  }

  function DigitValue(c: char): (d: nat)
    requires IsDigit(c)
    ensures d < 10
  {
    c as int - '0' as int
  }

  function DigitChar(d: nat): (c: char)
    requires d < 10
    ensures IsDigit(c) && DigitValue(c) == d
  {
    ('0' as int + d) as char
  }

  /** The numeral of a natural number. */
  function FromNat(n: nat): (s: string)
    ensures Canonical(s)
    decreases n
  {
    if n < 10 then [DigitChar(n)]
    else FromNat(n / 10) + [DigitChar(n % 10)]
  }

  /** `String(n)` for an integral JavaScript number. */
  function FromInt(n: int): (s: string)
    ensures |s| > 0
    ensures s[0] == '-' <==> n < 0
    ensures n < 0 ==> s[1..] == FromNat(-n)
    ensures n >= 0 ==> Canonical(s)
    ensures n >= 0 ==> s == FromNat(n)
    ensures n >= 0 ==> AllDigits(s) && ToNat(s) == n
    ensures n < 0 ==> AllDigits(s[1..]) && ToNat(s[1..]) == -n
  {
    if n < 0 then
      ToNatFromNat(-n);
      assert ("-" + FromNat(-n))[1..] == FromNat(-n);
      "-" + FromNat(-n)
    else
      ToNatFromNat(n);
      FromNat(n)
  }

  /** The value of a digit string (the empty string reads as 0). */
  function ToNat(s: string): (n: nat)
    requires AllDigits(s)
    decreases |s|
  {
    if s == [] then 0 else ToNat(s[..|s| - 1]) * 10 + DigitValue(s[|s| - 1])
  }

  /** Reading back the numeral of `n` gives `n`. */
  lemma {:induction false} ToNatFromNat(n: nat)
    ensures ToNat(FromNat(n)) == n
    decreases n
  {
    var s := FromNat(n);
    if n >= 10 {
      ToNatFromNat(n / 10);
      assert s[..|s| - 1] == FromNat(n / 10);
    }
  }

  /** A digit string whose value is 0 consists of zeros only. */
  lemma {:induction false} ToNatZero(s: string)
    requires AllDigits(s) && |s| > 0 && ToNat(s) == 0
    ensures s[0] == '0'
    decreases |s|
  {
    if |s| > 1 {
      ToNatZero(s[..|s| - 1]);
      assert s[..|s| - 1][0] == s[0];
    }
  }

  /** Every canonical numeral is the rendering of its value. */
  lemma {:induction false} FromNatToNat(s: string)
    requires Canonical(s)
    ensures FromNat(ToNat(s)) == s
    decreases |s|
  {
    if |s| > 1 {
      var p := s[..|s| - 1];
      assert p[0] == s[0];
      assert Canonical(p);
      FromNatToNat(p);
      if ToNat(p) == 0 {
        ToNatZero(p);
      }
      var n := ToNat(s);
      assert n / 10 == ToNat(p) && n % 10 == DigitValue(s[|s| - 1]);
      assert s == p + [s[|s| - 1]];
    }
  }
}

=== FILE: js_values.dfy ===
/**
 The slice of JavaScript values the logger touches: what a caller may pass as
 a component argument, how `x ? a : b` and default parameters read it, how a
 template literal renders it, and how object literals with a spread
 (`{ a: 1, ...extra }`) build a new object. Objects keep their properties in
 insertion order as a list of fields.
 */
module JsValues {
  import opened Options
  import Decimal

  datatype JsValue =
    | Undefined
    | Null
    | Bool(b: bool)
    | Num(n: int)
    | Str(s: string)
    | Obj(fields: seq<Field>)

  datatype Field = Field(key: string, value: JsValue)

  /** JavaScript truthiness; an object is truthy even when it has no fields. */
  function Truthy(v: JsValue): (t: bool)
    ensures !t <==> v in {Undefined, Null, Bool(false), Num(0), Str("")}
  {
    match v
    case Undefined => false
    case Null => false
    case Bool(b) => b
    case Num(n) => n != 0
    case Str(s) => s != ""
    case Obj(_) => true
  }

  /** A parameter with a default: the default applies only to `undefined`. */
  function Defaulted(v: JsValue, default: JsValue): (r: JsValue)
    ensures !v.Undefined? ==> r == v
    ensures v.Undefined? ==> r == default
  {
    if v.Undefined? then default else v
  }

  /** The text a template literal `${v}` produces. */
  function Render(v: JsValue): (r: string)
    ensures v.Undefined? ==> r == "undefined"
    ensures v.Null? ==> r == "null"
    ensures v.Bool? ==> r == (if v.b then "true" else "false")
    ensures v.Num? ==> r == Decimal.FromInt(v.n)
    ensures v.Num? && v.n >= 0 ==> Decimal.AllDigits(r) && Decimal.ToNat(r) == v.n
    ensures v.Str? ==> r == v.s
    ensures v.Obj? ==> r == "[object Object]"
  {
    match v
    case Undefined => "undefined"
    case Null => "null"
    case Bool(b) => if b then "true" else "false"
    case Num(n) => Decimal.FromInt(n)
    case Str(s) => s
    case Obj(_) => "[object Object]"
  }

  function Keys(fs: seq<Field>): (ks: seq<string>)
    ensures |ks| == |fs|
    decreases |fs|
  {
    if fs == [] then [] else [fs[0].key] + Keys(fs[1..])
  }

  lemma {:induction false} KeysAppend(a: seq<Field>, b: seq<Field>)
    ensures Keys(a + b) == Keys(a) + Keys(b)
    decreases |a|
  {
    if a != [] {
      KeysAppend(a[1..], b);
      assert (a + b)[1..] == a[1..] + b;
    } else {
      assert a + b == b;
    }
  }

  /** Keys and lookup of an object literal, one leading field at a time. */
  lemma FieldsCons(f: Field, fs: seq<Field>)
    ensures Keys([f] + fs) == [f.key] + Keys(fs)
    ensures Find([f] + fs, f.key) == Some(f.value)
    ensures forall k | k != f.key :: Find([f] + fs, k) == Find(fs, k)
  {
    assert ([f] + fs)[1..] == fs;
  }

  predicate Distinct(ks: seq<string>) {
    forall i, j :: 0 <= i < j < |ks| ==> ks[i] != ks[j]
  }

  /** The value of the first field named `k`, as a property read sees it. */
  function Find(fs: seq<Field>, k: string): (r: Option<JsValue>)
    ensures r.None? <==> k !in Keys(fs)
    decreases |fs|
  {
    if fs == [] then None
    else if fs[0].key == k then Some(fs[0].value)
    else Find(fs[1..], k)
  }

  /** The value of the last field named `k`: the one a spread copies last. */
  function FindLast(fs: seq<Field>, k: string): (r: Option<JsValue>)
    ensures r.None? <==> k !in Keys(fs)
    decreases |fs|
  {
    if fs == [] then None
    else
      KeysAppend(fs[..|fs| - 1], [fs[|fs| - 1]]);
      assert fs == fs[..|fs| - 1] + [fs[|fs| - 1]];
      if fs[|fs| - 1].key == k then Some(fs[|fs| - 1].value)
      else FindLast(fs[..|fs| - 1], k)
  }

  /**
   Reading property `k` of `v`: `None` when the read throws a TypeError (on
   `null` and `undefined`), `undefined` for a missing property.
   */
  function Property(v: JsValue, k: string): (r: Option<JsValue>)
    ensures r.None? <==> v.Undefined? || v.Null?
    ensures v.Obj? && k in Keys(v.fields) ==> r == Find(v.fields, k)
    ensures v.Obj? && k !in Keys(v.fields) ==> r == Some(Undefined)
  {
    match v
    case Undefined => None
    case Null => None
    case Obj(fs) => (match Find(fs, k) case Some(x) => Some(x) case None => Some(Undefined))
    case _ => Some(Undefined)
  }

  /**
   Assigning property `k` in an object literal under construction: an existing
   property keeps its position and takes the new value, a new one goes last.
   */
  function Put(fs: seq<Field>, k: string, v: JsValue): (r: seq<Field>)
    ensures Find(r, k) == Some(v)
    ensures forall k' :: k' != k ==> Find(r, k') == Find(fs, k')
    ensures k in Keys(fs) ==> Keys(r) == Keys(fs)
    ensures k !in Keys(fs) ==> Keys(r) == Keys(fs) + [k]
    decreases |fs|
  {
    if fs == [] then [Field(k, v)]
    else if fs[0].key == k then [Field(k, v)] + fs[1..]
    else
      var rest := Put(fs[1..], k, v);
      assert ([fs[0]] + rest)[1..] == rest;
      [fs[0]] + rest
  }

  /** The fields `...v` contributes to an object literal. */
  function Spread(v: JsValue): (r: seq<Field>)
    ensures v.Obj? ==> r == v.fields
    ensures !v.Obj? && !v.Str? ==> r == []
  {
    match v
    case Obj(fs) => fs
    case Str(s) => seq(|s|, i requires 0 <= i < |s| => Field(Decimal.FromNat(i), Str([s[i]])))
    case _ => []
  }

  /**
   The object literal `{ ...base, ...extra }` written out field by field:
   `extra` is applied in order on top of `base`.
   */
  function Merge(base: seq<Field>, extra: seq<Field>): (r: seq<Field>)
    ensures |base| <= |r| <= |base| + |extra|
    decreases |extra|
  {
    if extra == [] then base
    else
      var last := extra[|extra| - 1];
      Put(Merge(base, extra[..|extra| - 1]), last.key, last.value)
  }

  /** A property of the merged object comes from `extra` when `extra` names it, from `base` otherwise. */
  lemma {:induction false} MergeFind(base: seq<Field>, extra: seq<Field>, k: string)
    ensures Find(Merge(base, extra), k) == if k in Keys(extra) then FindLast(extra, k) else Find(base, k)
    decreases |extra|
  {
    if extra != [] {
      var init := extra[..|extra| - 1];
      var last := extra[|extra| - 1];
      MergeFind(base, init, k);
      KeysAppend(init, [last]);
      assert extra == init + [last];
      assert Merge(base, extra) == Put(Merge(base, init), last.key, last.value);
      if last.key == k {
        assert FindLast(extra, k) == Some(last.value);
      } else {
        assert FindLast(extra, k) == FindLast(init, k);
        assert k in Keys(extra) <==> k in Keys(init);
      }
    }
  }

  /** Merging keeps `base`'s properties first and in place, appending only names new to it. */
  lemma {:induction false} MergeKeys(base: seq<Field>, extra: seq<Field>)
    ensures |Keys(base)| <= |Keys(Merge(base, extra))|
    ensures Keys(Merge(base, extra))[..|Keys(base)|] == Keys(base)
    ensures forall k :: k in Keys(Merge(base, extra)) <==> k in Keys(base) || k in Keys(extra)
    decreases |extra|
  {
    if extra != [] {
      var init := extra[..|extra| - 1];
      MergeKeys(base, init);
      KeysAppend(init, [extra[|extra| - 1]]);
      assert extra == init + [extra[|extra| - 1]];
      var m := Merge(base, init);
      var k := extra[|extra| - 1].key;
      if k !in Keys(m) {
        assert Keys(m)[..|Keys(base)|] == (Keys(m) + [k])[..|Keys(base)|];
      }
    }
  }

  /** Merging never duplicates a property name. */
  lemma {:induction false} MergeKeysDistinct(base: seq<Field>, extra: seq<Field>)
    requires Distinct(Keys(base))
    ensures Distinct(Keys(Merge(base, extra)))
    decreases |extra|
  {
    if extra != [] {
      MergeKeysDistinct(base, extra[..|extra| - 1]);
    }
  }
}

=== FILE: levels.dfy ===
/**
 The five severities the logger's level methods send, with the exact,
 case-sensitive strings the remote endpoint expects.
 */
module Levels {
  import opened Options

  datatype Level = Debug | Info | Warn | Error | Fatal

  /** The string a level method passes to `log`: a non-empty upper-case word. */
  function Name(l: Level): (s: string)
    ensures |s| > 0 && forall i | 0 <= i < |s| :: 'A' <= s[i] <= 'Z'
  {
    match l
    case Debug => "DEBUG"
    case Info => "INFO"
    case Warn => "WARN"
    case Error => "ERROR"
    case Fatal => "FATAL"
  }

  /** The level a string names, if any; matching is exact. */
  function Parse(s: string): (r: Option<Level>)
    ensures r.Some? ==> Name(r.value) == s
  {
    if s == "DEBUG" then Some(Debug)
    else if s == "INFO" then Some(Info)
    else if s == "WARN" then Some(Warn)
    else if s == "ERROR" then Some(Error)
    else if s == "FATAL" then Some(Fatal)
    else None
  }

  /** Distinct levels have distinct names, and each name reads back as its level. */
  lemma ParseName(l: Level)
    ensures Parse(Name(l)) == Some(l)
    ensures forall m: Level :: Name(m) == Name(l) ==> m == l
  {
  }
}

=== FILE: logger.dfy ===
/**
 The LWCLogger class as a state machine over an immutable state record.

 Every asynchronous method becomes a pure step from a state and a `World`
 (the outcomes the remote Apex calls, the clock, the random source and the
 serializer would produce during that call) to a `Step`: the new state, the
 observable events in the order they happen, and how the returned promise
 settles.
 */
module Logger {
  import opened Options
  import opened JsValues
  import Decimal
  import Levels

  const DefaultComponentName: string := "Unknown"
  const FallbackPrefix: string := "LWC_"

  /** Headings of the three `console.error` calls. */
  const InitFailedHeading: string := "Failed to get transaction ID:"
  const DeliveryFailedHeading: string := "Logging failed:"
  const AsyncFailedHeading: string := "Async logging failed:"

  /** Why `logError` rejects when handed `null` or `undefined`. */
  const NullishErrorReason: string := "TypeError"

  datatype LoggerState = LoggerState(
    transactionId: Option<string>,
    componentName: string,
    isInitialized: bool)

  /** The state invariant: a transaction id is present exactly once initialized. */
  predicate Valid(s: LoggerState) {
    s.isInitialized <==> s.transactionId.Some?
  }

  /** The state the constructor builds. */
  function Fresh(): (s: LoggerState)
    ensures s.transactionId == None && s.componentName == "Unknown" && !s.isInitialized
    ensures Valid(s)
  {
    LoggerState(None, DefaultComponentName, false)
  }

  /** How an awaited remote call settles. */
  datatype Reply<T> = Resolved(value: T) | Rejected(reason: string)

  /**
   Everything outside the logger that one call may consult. Each field is
   only looked at if the call actually reaches the corresponding point.
   */
  datatype World = World(
    idReply: Reply<string>,         // getTransactionId()
    clockMillis: nat,               // Date.now()
    randomSuffix: string,           // Math.random().toString(36).substr(2, 9)
    logReply: Reply<()>,            // logFromComponent({...})
    isoNow: string,                 // new Date().toISOString()
    serialize: JsValue -> string)   // JSON.stringify

  /** The argument object of the remote `logFromComponent` call. */
  datatype LogRequest = LogRequest(
    component: string,
    level: string,
    message: string,
    recordId: Option<string>,
    additionalData: Option<string>)

  /** What the fallback `console.log` prints when delivery fails. */
  datatype FallbackRecord = FallbackRecord(
    level: string,
    component: string,
    message: string,
    recordId: Option<string>,
    additionalData: JsValue)

  datatype Event =
    | RemoteGetTransactionId
    | RemoteLog(request: LogRequest)
    | ConsoleError(heading: string, reason: string)
    | ConsoleLog(record: FallbackRecord)

  /** How the promise a method returns settles. */
  datatype Settled = Fulfilled | Failed(reason: string)

  datatype Step = Step(state: LoggerState, trace: seq<Event>, settled: Settled)

  // ---------------------------------------------------------------------
  // Projections of a trace

  /** How many times the trace calls `getTransactionId`. */
  function InitCalls(t: seq<Event>): nat
    decreases |t|
  {
    if t == [] then 0 else (if t[0].RemoteGetTransactionId? then 1 else 0) + InitCalls(t[1..])
  }

  /** The `logFromComponent` requests of a trace, in order. */
  function RemoteLogs(t: seq<Event>): seq<LogRequest>
    decreases |t|
  {
    if t == [] then [] else (if t[0].RemoteLog? then [t[0].request] else []) + RemoteLogs(t[1..])
  }

  /** The fallback records of a trace, in order. */
  function Fallbacks(t: seq<Event>): seq<FallbackRecord>
    decreases |t|
  {
    if t == [] then [] else (if t[0].ConsoleLog? then [t[0].record] else []) + Fallbacks(t[1..])
  }

  /** The projections of a trace with one leading event. */
  lemma ProjectCons(e: Event, t: seq<Event>)
    ensures InitCalls([e] + t) == (if e.RemoteGetTransactionId? then 1 else 0) + InitCalls(t)
    ensures RemoteLogs([e] + t) == (if e.RemoteLog? then [e.request] else []) + RemoteLogs(t)
    ensures Fallbacks([e] + t) == (if e.ConsoleLog? then [e.record] else []) + Fallbacks(t)
  {
    assert ([e] + t)[1..] == t;
  }

  /** The projections distribute over concatenated traces. */
  lemma {:induction false} ProjectAppend(a: seq<Event>, b: seq<Event>)
    ensures InitCalls(a + b) == InitCalls(a) + InitCalls(b)
    ensures RemoteLogs(a + b) == RemoteLogs(a) + RemoteLogs(b)
    ensures Fallbacks(a + b) == Fallbacks(a) + Fallbacks(b)
    decreases |a|
  {
    if a == [] {
      assert a + b == b;
    } else {
      ProjectAppend(a[1..], b);
      assert a == [a[0]] + a[1..];
      assert a + b == [a[0]] + (a[1..] + b);
      ProjectCons(a[0], a[1..]);
      ProjectCons(a[0], a[1..] + b);
    }
  }

  /** No delivery attempt precedes an id fetch: initialization comes before delivery. */
  predicate InitBeforeDelivery(t: seq<Event>) {
    forall i, j | 0 <= i < j < |t| :: !(t[i].RemoteLog? && t[j].RemoteGetTransactionId?)
  }

  /** A trace that only initializes followed by one that only delivers keeps that order. */
  lemma InitThenDelivery(a: seq<Event>, b: seq<Event>)
    requires forall i | 0 <= i < |a| :: !a[i].RemoteLog?
    requires forall i | 0 <= i < |b| :: !b[i].RemoteGetTransactionId?
    ensures InitBeforeDelivery(a + b)
  {
    forall i, j | 0 <= i < j < |a + b|
      ensures !((a + b)[i].RemoteLog? && (a + b)[j].RemoteGetTransactionId?)
    {
      if i < |a| {
        assert (a + b)[i] == a[i];
      } else {
        assert (a + b)[j] == b[j - |a|];
      }
    }
  }

  /** The events of a first `init`: the remote call, then a report if it failed. */
  function InitTrace(reply: Reply<string>): (t: seq<Event>)
    ensures InitCalls(t) == 1 && RemoteLogs(t) == [] && Fallbacks(t) == []
    ensures |t| > 0 && t[0] == RemoteGetTransactionId
    ensures forall i | 0 <= i < |t| :: !t[i].RemoteLog?
    ensures reply.Resolved? ==> t == [RemoteGetTransactionId]
    ensures reply.Rejected? ==> t == [RemoteGetTransactionId, ConsoleError(InitFailedHeading, reply.reason)]
  {
    match reply
    case Resolved(_) =>
      ProjectCons(RemoteGetTransactionId, []);
      [RemoteGetTransactionId]
    case Rejected(e) =>
      ProjectCons(ConsoleError(InitFailedHeading, e), []);
      ProjectCons(RemoteGetTransactionId, [ConsoleError(InitFailedHeading, e)]);
      [RemoteGetTransactionId] + [ConsoleError(InitFailedHeading, e)]
  }

  /** The events of one delivery attempt: the remote call, then on failure a report and a fallback record. */
  function DeliveryTrace(request: LogRequest, reply: Reply<()>, record: FallbackRecord): (t: seq<Event>)
    ensures InitCalls(t) == 0 && RemoteLogs(t) == [request]
    ensures Fallbacks(t) == if reply.Rejected? then [record] else []
    ensures |t| > 0 && t[0] == RemoteLog(request)
    ensures forall i | 0 <= i < |t| :: !t[i].RemoteGetTransactionId?
    ensures reply.Resolved? ==> t == [RemoteLog(request)]
    ensures reply.Rejected? ==>
              t == [RemoteLog(request), ConsoleError(DeliveryFailedHeading, reply.reason), ConsoleLog(record)]
  {
    match reply
    case Resolved(_) =>
      ProjectCons(RemoteLog(request), []);
      [RemoteLog(request)]
    case Rejected(e) =>
      ProjectCons(ConsoleLog(record), []);
      ProjectCons(ConsoleError(DeliveryFailedHeading, e), [ConsoleLog(record)]);
      ProjectCons(RemoteLog(request), [ConsoleError(DeliveryFailedHeading, e)] + [ConsoleLog(record)]);
      [RemoteLog(request)] + ([ConsoleError(DeliveryFailedHeading, e)] + [ConsoleLog(record)])
  }

  // ---------------------------------------------------------------------
  // Fallback transaction ids

  /** The id `init` invents when `getTransactionId` fails. */
  function FallbackTransactionId(clockMillis: nat, randomSuffix: string): (id: string)
    ensures |id| > |FallbackPrefix| && id[..|FallbackPrefix|] == FallbackPrefix
  {
    FallbackPrefix + Decimal.FromNat(clockMillis) + "_" + randomSuffix
  }

  datatype FallbackParts = FallbackParts(clockMillis: nat, randomSuffix: string)

  /** The position of the first `c` in `s`. */
  function IndexOf(s: string, c: char): (r: Option<nat>)
    ensures r.Some? ==> r.value < |s| && s[r.value] == c && c !in s[..r.value]
    ensures r.None? ==> c !in s
    decreases |s|
  {
    if s == [] then None
    else if s[0] == c then Some(0)
    else
      match IndexOf(s[1..], c)
      case None => None
      case Some(k) =>
        assert s[..k + 1] == [s[0]] + s[1..][..k];
        Some(k + 1)
  }

  /** Splits a fallback id back into its clock reading and random suffix. */
  function ParseFallbackId(id: string): (r: Option<FallbackParts>)
  {
    if |id| < |FallbackPrefix| || id[..|FallbackPrefix|] != FallbackPrefix then None
    else
      var rest := id[|FallbackPrefix|..];
      match IndexOf(rest, '_')
      case None => None
      case Some(k) =>
        if Decimal.Canonical(rest[..k]) then Some(FallbackParts(Decimal.ToNat(rest[..k]), rest[k + 1..]))
        else None
  }

  /** A fallback id carries the clock reading and the suffix it was built from. */
  lemma FallbackIdRoundTrip(clockMillis: nat, randomSuffix: string)
    ensures ParseFallbackId(FallbackTransactionId(clockMillis, randomSuffix))
            == Some(FallbackParts(clockMillis, randomSuffix))
  {
    var d := Decimal.FromNat(clockMillis);
    var id := FallbackTransactionId(clockMillis, randomSuffix);
    var rest := id[|FallbackPrefix|..];
    assert rest == d + "_" + randomSuffix;
    assert rest[|d|] == '_';
    assert '_' !in rest[..|d|] by {
      assert rest[..|d|] == d;
    }
    assert IndexOf(rest, '_') == Some(|d|);
    assert rest[..|d|] == d;
    assert rest[|d| + 1..] == randomSuffix;
    Decimal.ToNatFromNat(clockMillis);
  }

  /** Every id that parses as a fallback id is the one built from its parts. */
  lemma ParsedFallbackId(id: string)
    requires ParseFallbackId(id).Some?
    ensures id == FallbackTransactionId(ParseFallbackId(id).value.clockMillis, ParseFallbackId(id).value.randomSuffix)
  {
    var rest := id[|FallbackPrefix|..];
    var k := IndexOf(rest, '_').value;
    Decimal.FromNatToNat(rest[..k]);
    assert rest == rest[..k] + "_" + rest[k + 1..];
    assert id == id[..|FallbackPrefix|] + rest;
  }

  // ---------------------------------------------------------------------
  // The class's methods

  /** `init()`: obtain the transaction id once, falling back to a local one. */
  function Init(s: LoggerState, w: World): (r: Step)
    ensures r.settled == Fulfilled
    ensures r.state.componentName == s.componentName && r.state.isInitialized
    ensures s.isInitialized ==> r.state == s && r.trace == []
    ensures !s.isInitialized ==> InitCalls(r.trace) == 1 && RemoteLogs(r.trace) == [] && Fallbacks(r.trace) == []
    ensures !s.isInitialized ==> r.state.transactionId.Some?
    ensures !s.isInitialized ==> r.trace[0] == RemoteGetTransactionId
    ensures forall i | 0 <= i < |r.trace| :: !r.trace[i].RemoteLog?
    ensures !s.isInitialized && w.idReply.Resolved? ==> r.trace == [RemoteGetTransactionId]
    ensures !s.isInitialized && w.idReply.Rejected? ==>
              r.trace == [RemoteGetTransactionId, ConsoleError(InitFailedHeading, w.idReply.reason)]
    ensures !s.isInitialized && w.idReply.Resolved? ==> r.state.transactionId == Some(w.idReply.value)
    ensures !s.isInitialized && w.idReply.Rejected? ==>
              ParseFallbackId(r.state.transactionId.value) == Some(FallbackParts(w.clockMillis, w.randomSuffix))
    ensures Valid(s) ==> Valid(r.state)
  {
    if s.isInitialized then Step(s, [], Fulfilled)
    else
      var id := match w.idReply
        case Resolved(id) => id
        case Rejected(_) => FallbackTransactionId(w.clockMillis, w.randomSuffix);
      FallbackIdRoundTrip(w.clockMillis, w.randomSuffix);
      Step(s.(transactionId := Some(id), isInitialized := true), InitTrace(w.idReply), Fulfilled)
  }

  /** A second `init` makes no remote call and changes nothing, whatever the world would answer. */
  lemma InitIdempotent(s: LoggerState, w1: World, w2: World)
    ensures Init(Init(s, w1).state, w2) == Step(Init(s, w1).state, [], Fulfilled)
  {
  }

  /**
   What `log` sends and what it writes on failure depend only on the component
   name, never on whether or how the transaction id was obtained.
   */
  lemma LogIgnoresSession(s1: LoggerState, s2: LoggerState, w: World, level: string, message: string,
                          recordId: Option<string>, additionalData: JsValue)
    requires s1.componentName == s2.componentName
    ensures RemoteLogs(Log(s1, w, level, message, recordId, additionalData).trace)
            == RemoteLogs(Log(s2, w, level, message, recordId, additionalData).trace)
    ensures Fallbacks(Log(s1, w, level, message, recordId, additionalData).trace)
            == Fallbacks(Log(s2, w, level, message, recordId, additionalData).trace)
  {
  }

  /** `setComponentName(name)`: retags later log calls and touches nothing else. */
  function SetComponentName(s: LoggerState, name: string): (r: LoggerState)
    ensures r.componentName == name
    ensures r.transactionId == s.transactionId && r.isInitialized == s.isInitialized
  {
    s.(componentName := name)
  }

  /** The `additionalData` field sent to the endpoint: serialized when truthy, `null` otherwise. */
  function Payload(serialize: JsValue -> string, data: JsValue): (r: Option<string>)
    ensures r.None? <==> !Truthy(data)
    ensures r.Some? ==> r.value == serialize(data)
  {
    if Truthy(data) then Some(serialize(data)) else None
  }

  /**
   `log(level, message, recordId, additionalData)`: initialize if needed, make
   one remote log call, and on its failure write one fallback record. The
   returned promise always fulfils.
   */
  function Log(s: LoggerState, w: World, level: string, message: string, recordId: Option<string>,
               additionalData: JsValue): (r: Step)
    ensures r.settled == Fulfilled
    ensures r.state == Init(s, w).state
    ensures InitCalls(r.trace) == (if s.isInitialized then 0 else 1)
    ensures RemoteLogs(r.trace) ==
              [LogRequest(s.componentName, level, message, recordId,
                          Payload(w.serialize, Defaulted(additionalData, Null)))]
    ensures Fallbacks(r.trace) ==
              (if w.logReply.Rejected?
               then [FallbackRecord(level, s.componentName, message, recordId, Defaulted(additionalData, Null))]
               else [])
    ensures !s.isInitialized ==> r.trace[0] == RemoteGetTransactionId
    ensures InitBeforeDelivery(r.trace)
    ensures var data := Defaulted(additionalData, Null);
            var q := LogRequest(s.componentName, level, message, recordId, Payload(w.serialize, data));
            var rec := FallbackRecord(level, s.componentName, message, recordId, data);
            r.trace == Init(s, w).trace +
                       (if w.logReply.Rejected?
                        then [RemoteLog(q), ConsoleError(DeliveryFailedHeading, w.logReply.reason), ConsoleLog(rec)]
                        else [RemoteLog(q)])
  {
    var ready := if !s.isInitialized then Init(s, w) else Step(s, [], Fulfilled);
    var data := Defaulted(additionalData, Null);
    var name := ready.state.componentName;
    var request := LogRequest(name, level, message, recordId, Payload(w.serialize, data));
    var delivery := DeliveryTrace(request, w.logReply, FallbackRecord(level, name, message, recordId, data));
    ProjectAppend(ready.trace, delivery);
    InitThenDelivery(ready.trace, delivery);
    Step(ready.state, ready.trace + delivery, Fulfilled)
  }

  /** `debug(...)`: `log` at level DEBUG. */
  function Debug(s: LoggerState, w: World, message: string, recordId: Option<string>, additionalData: JsValue): (r: Step)
    ensures r == Log(s, w, Levels.Name(Levels.Debug), message, recordId, additionalData)
  {
    assert Levels.Name(Levels.Debug) == "DEBUG";
    Log(s, w, "DEBUG", message, recordId, additionalData)
  }

  /** `info(...)`: `log` at level INFO. */
  function Info(s: LoggerState, w: World, message: string, recordId: Option<string>, additionalData: JsValue): (r: Step)
    ensures r == Log(s, w, Levels.Name(Levels.Info), message, recordId, additionalData)
  {
    assert Levels.Name(Levels.Info) == "INFO";
    Log(s, w, "INFO", message, recordId, additionalData)
  }

  /** `warn(...)`: `log` at level WARN. */
  function Warn(s: LoggerState, w: World, message: string, recordId: Option<string>, additionalData: JsValue): (r: Step)
    ensures r == Log(s, w, Levels.Name(Levels.Warn), message, recordId, additionalData)
  {
    assert Levels.Name(Levels.Warn) == "WARN";
    Log(s, w, "WARN", message, recordId, additionalData)
  }

  /** `error(...)`: `log` at level ERROR. */
  function Error(s: LoggerState, w: World, message: string, recordId: Option<string>, additionalData: JsValue): (r: Step)
    ensures r == Log(s, w, Levels.Name(Levels.Error), message, recordId, additionalData)
  {
    assert Levels.Name(Levels.Error) == "ERROR";
    Log(s, w, "ERROR", message, recordId, additionalData)
  }

  /** `fatal(...)`: `log` at level FATAL. */
  function Fatal(s: LoggerState, w: World, message: string, recordId: Option<string>, additionalData: JsValue): (r: Step)
    ensures r == Log(s, w, Levels.Name(Levels.Fatal), message, recordId, additionalData)
  {
    assert Levels.Name(Levels.Fatal) == "FATAL";
    Log(s, w, "FATAL", message, recordId, additionalData)
  }

  /** The message `logError` synthesizes. */
  function ErrorMessage(context: JsValue, message: JsValue): (m: string)
    ensures context.Str? && message.Str? ==> m == "Error in " + context.s + ": " + message.s
    ensures context.Str? && message.Undefined? ==> m == "Error in " + context.s + ": " + "undefined"
    ensures context.Null? && message.Str? ==> m == "Error in " + "null" + ": " + message.s
    ensures context.Null? && message.Undefined? ==> m == "Error in " + "null" + ": " + "undefined"
  {
    "Error in " + Render(context) + ": " + Render(message)
  }

  /** The structured payload `logError` attaches. */
  function ErrorInfo(message: JsValue, stack: JsValue, context: JsValue, isoNow: string): (r: JsValue)
    ensures r.Obj? && Distinct(Keys(r.fields))
    ensures Keys(r.fields) == ["message", "stack", "context", "timestamp"]
    ensures Find(r.fields, "message") == Some(message)
    ensures Find(r.fields, "stack") == Some(stack)
    ensures Find(r.fields, "context") == Some(context)
    ensures Find(r.fields, "timestamp") == Some(Str(isoNow))
  {
    var f3 := [Field("timestamp", Str(isoNow))];
    var f2 := [Field("context", context)] + f3;
    var f1 := [Field("stack", stack)] + f2;
    FieldsCons(Field("timestamp", Str(isoNow)), []);
    FieldsCons(Field("context", context), f3);
    FieldsCons(Field("stack", stack), f2);
    FieldsCons(Field("message", message), f1);
    Obj([Field("message", message)] + f1)
  }

  /**
   `logError(error, context, recordId)`: one ERROR-level log of the error's
   message, stack and context. Reading `error.message` throws on `null` and
   `undefined`, so for those the returned promise rejects before anything
   happens.
   */
  function LogError(s: LoggerState, w: World, error: JsValue, context: JsValue, recordId: Option<string>): (r: Step)
    ensures r.settled.Failed? <==> error.Null? || error.Undefined?
    ensures r.settled.Failed? ==> r.state == s && r.trace == []
    ensures r.settled.Fulfilled? ==>
              var ctx := Defaulted(context, Str(""));
              var msg := Property(error, "message").value;
              var info := ErrorInfo(msg, Property(error, "stack").value, ctx, w.isoNow);
              && r.state == Init(s, w).state
              && InitCalls(r.trace) == (if s.isInitialized then 0 else 1)
              && RemoteLogs(r.trace) ==
                   [LogRequest(s.componentName, "ERROR", ErrorMessage(ctx, msg), recordId, Some(w.serialize(info)))]
              && Fallbacks(r.trace) ==
                   (if w.logReply.Rejected?
                    then [FallbackRecord("ERROR", s.componentName, ErrorMessage(ctx, msg), recordId, info)]
                    else [])
    ensures r.settled.Fulfilled? ==>
              var ctx := Defaulted(context, Str(""));
              var msg := Property(error, "message").value;
              r == Log(s, w, "ERROR", ErrorMessage(ctx, msg), recordId,
                       ErrorInfo(msg, Property(error, "stack").value, ctx, w.isoNow))
    ensures InitBeforeDelivery(r.trace)
  {
    var ctx := Defaulted(context, Str(""));
    match Property(error, "message")
    case None => Step(s, [], Failed(NullishErrorReason))
    case Some(msg) =>
      var info := ErrorInfo(msg, Property(error, "stack").value, ctx, w.isoNow);
      var r := Error(s, w, ErrorMessage(ctx, msg), recordId, info);
      assert Truthy(info);
      assert r == Log(s, w, "ERROR", ErrorMessage(ctx, msg), recordId, info);
      r
  }

  /** The message `logPerformance` synthesizes. */
  function PerformanceMessage(operation: JsValue, duration: JsValue): (m: string)
    ensures operation.Str? && duration.Num? ==>
              m == "Performance: " + operation.s + " took " + Decimal.FromInt(duration.n) + "ms"
    ensures operation.Str? && duration.Undefined? ==> m == "Performance: " + operation.s + " took " + "undefined" + "ms"
    ensures operation.Str? && duration.Null? ==> m == "Performance: " + operation.s + " took " + "null" + "ms"
    ensures operation.Undefined? && duration.Undefined? ==>
              m == "Performance: " + "undefined" + " took " + "undefined" + "ms"
  {
    "Performance: " + Render(operation) + " took " + Render(duration) + "ms"
  }

  /**
   The payload `logPerformance` attaches: operation, duration and timestamp,
   then the caller's fields spread over them.
   */
  function PerformanceData(operation: JsValue, duration: JsValue, isoNow: string, extra: JsValue): (r: JsValue)
    ensures r.Obj? && Distinct(Keys(r.fields))
    ensures |r.fields| >= 3 && Keys(r.fields)[..3] == ["operation", "duration", "timestamp"]
    ensures forall k :: k in Keys(r.fields) <==> k in ["operation", "duration", "timestamp"] || k in Keys(Spread(extra))
  {
    var base := MeasuredFields(operation, duration, isoNow);
    MergeKeys(base, Spread(extra));
    MergeKeysDistinct(base, Spread(extra));
    Obj(Merge(base, Spread(extra)))
  }

  /** The fields `logPerformance` measures itself, before the caller's are spread over them. */
  function MeasuredFields(operation: JsValue, duration: JsValue, isoNow: string): (fs: seq<Field>)
    ensures Keys(fs) == ["operation", "duration", "timestamp"]
    ensures Find(fs, "operation") == Some(operation)
    ensures Find(fs, "duration") == Some(duration)
    ensures Find(fs, "timestamp") == Some(Str(isoNow))
  {
    var f2 := [Field("timestamp", Str(isoNow))];
    var f1 := [Field("duration", duration)] + f2;
    FieldsCons(Field("timestamp", Str(isoNow)), []);
    FieldsCons(Field("duration", duration), f2);
    FieldsCons(Field("operation", operation), f1);
    [Field("operation", operation)] + f1
  }

  /**
   Each property of the performance payload: the caller's value when the
   caller supplies that key, the measured one otherwise.
   */
  lemma PerformanceDataFind(operation: JsValue, duration: JsValue, isoNow: string, extra: JsValue, k: string)
    ensures Find(PerformanceData(operation, duration, isoNow, extra).fields, k)
            == if k in Keys(Spread(extra)) then FindLast(Spread(extra), k)
               else Find(MeasuredFields(operation, duration, isoNow), k)
  {
    MergeFind(MeasuredFields(operation, duration, isoNow), Spread(extra), k);
  }

  /** `logPerformance(operation, duration, additionalData)`: one INFO-level log without record id. */
  function LogPerformance(s: LoggerState, w: World, operation: JsValue, duration: JsValue, additionalData: JsValue): (r: Step)
    ensures r.settled == Fulfilled
    ensures r.state == Init(s, w).state
    ensures InitCalls(r.trace) == (if s.isInitialized then 0 else 1)
    ensures var data := PerformanceData(operation, duration, w.isoNow, Defaulted(additionalData, Null));
            && RemoteLogs(r.trace) ==
                 [LogRequest(s.componentName, "INFO", PerformanceMessage(operation, duration), None, Some(w.serialize(data)))]
            && Fallbacks(r.trace) ==
                 (if w.logReply.Rejected?
                  then [FallbackRecord("INFO", s.componentName, PerformanceMessage(operation, duration), None, data)]
                  else [])
    ensures r == Log(s, w, "INFO", PerformanceMessage(operation, duration), None,
                     PerformanceData(operation, duration, w.isoNow, Defaulted(additionalData, Null)))
    ensures InitBeforeDelivery(r.trace)
  {
    var data := PerformanceData(operation, duration, w.isoNow, Defaulted(additionalData, Null));
    assert Truthy(data);
    Info(s, w, PerformanceMessage(operation, duration), None, data)
  }

  /**
   `logSync(...)`: starts `log` without awaiting it; a rejection would be
   reported by the attached handler. Since `log` never rejects, the handler
   never runs and the caller sees exactly what `log` does.
   */
  function LogSync(s: LoggerState, w: World, level: string, message: string, recordId: Option<string>,
                   additionalData: JsValue): (r: Step)
    ensures r.settled == Fulfilled
    ensures r.state == Log(s, w, level, message, recordId, additionalData).state
    ensures r.trace == Log(s, w, level, message, recordId, additionalData).trace
  {
    var pending := Log(s, w, level, message, recordId, additionalData);
    match pending.settled
    case Fulfilled => Step(pending.state, pending.trace, Fulfilled)
    case Failed(e) => Step(pending.state, pending.trace + [ConsoleError(AsyncFailedHeading, e)], Fulfilled)
  }
}

=== FILE: options.dfy ===
/** The optional value used wherever the logger's JavaScript allows `null`. */
module Options {

  /** `None` stands for JavaScript `null` (or an omitted argument). */
  datatype Option<+T> = None | Some(value: T)
}

=== FILE: scenarios.dfy ===
/**
 Concrete runs of the logger that pin down its observable behaviour on
 particular inputs: level names, the synthesized messages, the fallback on a
 failed delivery, truthiness of the payload and precedence of caller fields.
 */
module Scenarios {
  import opened Options
  import opened JsValues
  import opened Logger
  import Levels
  import Decimal

  /** A world in which every remote call fails. */
  function Offline(serialize: JsValue -> string): World {
    World(Rejected("offline"), 0, "", Rejected("offline"), "1970-01-01T00:00:00.000Z", serialize)
  }

  /** With the endpoint down, `info("hello")` still fulfils and leaves one INFO fallback record. */
  lemma OfflineInfoFallsBack(serialize: JsValue -> string)
    ensures var r := Info(Fresh(), Offline(serialize), "hello", None, Undefined);
            && r.settled == Fulfilled
            && r.state.isInitialized
            && r.state.transactionId.value[..4] == "LWC_"
            && Fallbacks(r.trace) == [FallbackRecord("INFO", "Unknown", "hello", None, Null)]
            && |RemoteLogs(r.trace)| == 1 && RemoteLogs(r.trace)[0].additionalData == None
  {
  }

  /** After `setComponentName("Widget")` requests carry that tag. */
  lemma ComponentTagging(s: LoggerState, w: World, message: string)
    ensures var r := Warn(SetComponentName(s, "Widget"), w, message, None, Null);
            RemoteLogs(r.trace) == [LogRequest("Widget", "WARN", message, None, None)]
  {
  }

  /** The generic `log` forwards a level outside the five without complaint. */
  lemma UnknownLevelForwarded(s: LoggerState, w: World)
    ensures Levels.Parse("TRACE") == None
    ensures RemoteLogs(Log(s, w, "TRACE", "x", None, Null).trace)[0].level == "TRACE"
  {
  }

  /** A falsy payload such as `0` is sent as `null`, while the fallback record keeps it as given. */
  lemma FalsyPayloadDropped(s: LoggerState, w: World)
    requires w.logReply.Rejected?
    ensures var r := Debug(s, w, "x", None, Num(0));
            && RemoteLogs(r.trace)[0].additionalData == None
            && Fallbacks(r.trace)[0].additionalData == Num(0)
  {
  }

  /** An error whose `message` is a string yields "Error in <context>: <message>" at ERROR. */
  lemma LogErrorMessage(s: LoggerState, w: World, error: JsValue, context: string, message: string,
                        recordId: Option<string>)
    requires Property(error, "message") == Some(Str(message))
    ensures var r := LogError(s, w, error, Str(context), recordId);
            && r.settled == Fulfilled
            && |RemoteLogs(r.trace)| == 1
            && RemoteLogs(r.trace)[0].level == "ERROR"
            && RemoteLogs(r.trace)[0].message == "Error in " + context + ": " + message
            && RemoteLogs(r.trace)[0].recordId == recordId
  {
  }

  /** `new Error("boom")` reads as an object whose `message` is "boom". */
  lemma BoomMessage(stack: string)
    ensures Property(Obj([Field("message", Str("boom")), Field("stack", Str(stack))]), "message") == Some(Str("boom"))
  {
    var fs := [Field("message", Str("boom")), Field("stack", Str(stack))];
    FieldsCons(Field("message", Str("boom")), [Field("stack", Str(stack))]);
    assert [Field("message", Str("boom"))] + [Field("stack", Str(stack))] == fs;
  }

  /** `logError(new Error("boom"), "ctx")` sends "Error in ctx: boom" at ERROR. */
  lemma LogErrorBoom(s: LoggerState, w: World, stack: string)
    ensures var r := LogError(s, w, Obj([Field("message", Str("boom")), Field("stack", Str(stack))]), Str("ctx"), None);
            RemoteLogs(r.trace)[0].message == "Error in ctx: boom"
  {
    assert "Error in " + "ctx" + ": " + "boom" == "Error in ctx: boom";
    BoomMessage(stack);
    LogErrorMessage(s, w, Obj([Field("message", Str("boom")), Field("stack", Str(stack))]), "ctx", "boom", None);
  }

  /** Without a context argument the message reads "Error in : ..." (the default is the empty string). */
  lemma LogErrorDefaultContext(s: LoggerState, w: World, error: JsValue, message: string)
    requires Property(error, "message") == Some(Str(message))
    ensures RemoteLogs(LogError(s, w, error, Undefined, None).trace)[0].message == "Error in : " + message
  {
    var m := ErrorMessage(Str(""), Str(message));
    assert m == "Error in : " + message by {
      assert "Error in " + "" + ": " == "Error in : ";
    }
    assert RemoteLogs(LogError(s, w, error, Undefined, None).trace)[0].message == m;
  }

  /** `logError(undefined)` rejects: reading its `message` throws before anything is logged. */
  lemma LogErrorUndefinedRejects(s: LoggerState, w: World)
    ensures LogError(s, w, Undefined, Str("ctx"), None) == Step(s, [], Failed(NullishErrorReason))
  {
  }

  /** A duration of 123 renders as "123". */
  lemma LoadMessage()
    ensures PerformanceMessage(Str("load"), Num(123)) == "Performance: load took 123ms"
  {
    assert Decimal.FromNat(1) == "1";
    assert Decimal.FromNat(12) == "12";
    assert Decimal.FromNat(123) == "123";
    assert Render(Num(123)) == "123";
  }

  /** `logPerformance("load", 123)` sends "Performance: load took 123ms" at INFO without record id. */
  lemma LogPerformanceLoad(s: LoggerState, w: World)
    ensures var r := LogPerformance(s, w, Str("load"), Num(123), Null);
            RemoteLogs(r.trace)[0].message == "Performance: load took 123ms"
            && RemoteLogs(r.trace)[0].level == "INFO"
            && RemoteLogs(r.trace)[0].recordId == None
  {
    LoadMessage();
    var msg := PerformanceMessage(Str("load"), Num(123));
    var r := LogPerformance(s, w, Str("load"), Num(123), Null);
    var data := PerformanceData(Str("load"), Num(123), w.isoNow, Null);
    assert RemoteLogs(r.trace) == [LogRequest(s.componentName, "INFO", msg, None, Some(w.serialize(data)))];
  }

  /** A caller field named `duration` overrides the measured one but keeps its place. */
  lemma CallerFieldOverrides(isoNow: string)
    ensures var d := PerformanceData(Str("load"), Num(5), isoNow, Obj([Field("duration", Str("slow"))]));
            && Find(d.fields, "duration") == Some(Str("slow"))
            && Find(d.fields, "operation") == Some(Str("load"))
            && Keys(d.fields) == ["operation", "duration", "timestamp"]
  {
    var extra := [Field("duration", Str("slow"))];
    FieldsCons(Field("duration", Str("slow")), []);
    assert extra == [Field("duration", Str("slow"))] + [];
    var d := PerformanceData(Str("load"), Num(5), isoNow, Obj(extra));
    assert Keys(extra) == ["duration"];
    assert forall k :: k in Keys(d.fields) <==> k in ["operation", "duration", "timestamp"];
    assert FindLast(extra, "duration") == Some(Str("slow"));
    PerformanceDataFind(Str("load"), Num(5), isoNow, Obj(extra), "duration");
    PerformanceDataFind(Str("load"), Num(5), isoNow, Obj(extra), "operation");
  }
}

=== FILE: sessions.dfy ===
/**
 A session: the logger singleton driven by a sequence of calls, each awaited
 before the next is issued; `logSync` cannot be awaited, so it may only be
 the last call of a session. This is where the properties that span several
 calls live: the transaction id is fetched at most once, it never changes
 afterwards, and the remote endpoint receives one request per logging call,
 in issuance order, tagged with the component name current at that call.
 */
module Sessions {
  import opened Options
  import opened JsValues
  import opened Logger
  import Levels

  /** One call on the logger's public surface. */
  datatype Call =
    | SetName(name: string)
    | InitCall
    | LogCall(level: string, message: string, recordId: Option<string>, data: JsValue)
    | LevelCall(lvl: Levels.Level, message: string, recordId: Option<string>, data: JsValue)
    | LogErrorCall(error: JsValue, context: JsValue, recordId: Option<string>)
    | LogPerformanceCall(operation: JsValue, duration: JsValue, data: JsValue)
    | LogSyncCall(level: string, message: string, recordId: Option<string>, data: JsValue)

  /** Runs one call; `LevelCall` goes to the wrapper for its level. */
  function Apply(s: LoggerState, c: Call, w: World): Step {
    match c
    case SetName(name) => Step(SetComponentName(s, name), [], Fulfilled)
    case InitCall => Init(s, w)
    case LogCall(level, message, recordId, data) => Log(s, w, level, message, recordId, data)
    case LevelCall(lvl, message, recordId, data) =>
      (match lvl
       case Debug => Debug(s, w, message, recordId, data)
       case Info => Info(s, w, message, recordId, data)
       case Warn => Warn(s, w, message, recordId, data)
       case Error => Error(s, w, message, recordId, data)
       case Fatal => Fatal(s, w, message, recordId, data))
    case LogErrorCall(error, context, recordId) => LogError(s, w, error, context, recordId)
    case LogPerformanceCall(operation, duration, data) => LogPerformance(s, w, operation, duration, data)
    case LogSyncCall(level, message, recordId, data) => LogSync(s, w, level, message, recordId, data)
  }

  /** Whether a call reaches `init` (every call but a rename and a `logError` that throws first). */
  predicate Triggers(c: Call) {
    !c.SetName? && !(c.LogErrorCall? && (c.error.Null? || c.error.Undefined?))
  }

  /** The identifying fields of a remote log request. */
  datatype Header = Header(component: string, level: string, message: string, recordId: Option<string>)

  function Headers(qs: seq<LogRequest>): (hs: seq<Header>)
    ensures |hs| == |qs|
    decreases |qs|
  {
    if qs == [] then []
    else [Header(qs[0].component, qs[0].level, qs[0].message, qs[0].recordId)] + Headers(qs[1..])
  }

  /**
   The requests a call should send, read off the call alone: it depends on the
   current component name but not on whether the logger is initialized, nor
   on anything the remote endpoint answers.
   */
  function Expected(name: string, c: Call): seq<Header> {
    match c
    case SetName(_) => []
    case InitCall => []
    case LogCall(level, message, recordId, _) => [Header(name, level, message, recordId)]
    case LevelCall(lvl, message, recordId, _) => [Header(name, Levels.Name(lvl), message, recordId)]
    case LogErrorCall(error, context, recordId) =>
      (match Property(error, "message")
       case None => []
       case Some(msg) => [Header(name, "ERROR", ErrorMessage(Defaulted(context, Str("")), msg), recordId)])
    case LogPerformanceCall(operation, duration, _) =>
      [Header(name, "INFO", PerformanceMessage(operation, duration), None)]
    case LogSyncCall(level, message, recordId, _) => [Header(name, level, message, recordId)]
  }

  /** The component name in force after a call. */
  function NameAfter(name: string, c: Call): string {
    if c.SetName? then c.name else name
  }

  /** What one call does to the state, as seen from the session. */
  lemma ApplyState(s: LoggerState, c: Call, w: World)
    ensures Apply(s, c, w).settled.Failed? <==> c.LogErrorCall? && (c.error.Null? || c.error.Undefined?)
    ensures Apply(s, c, w).state.componentName == NameAfter(s.componentName, c)
    ensures Apply(s, c, w).state.isInitialized <==> s.isInitialized || Triggers(c)
    ensures s.isInitialized ==> Apply(s, c, w).state.transactionId == s.transactionId
    ensures Valid(s) ==> Valid(Apply(s, c, w).state)
  {
    if c.LevelCall? {
      LevelCallFacts(s, c.lvl, c.message, c.recordId, c.data, w);
    }
  }

  /** What one call adds to the trace: at most one id fetch, and the requests read off the call. */
  lemma ApplyTrace(s: LoggerState, c: Call, w: World)
    ensures InitCalls(Apply(s, c, w).trace) == (if !s.isInitialized && Triggers(c) then 1 else 0)
    ensures Headers(RemoteLogs(Apply(s, c, w).trace)) == Expected(s.componentName, c)
  {
    match c
    case SetName(_) =>
    case InitCall =>
    case LogCall(level, message, recordId, data) =>
    case LevelCall(lvl, message, recordId, data) =>
      LevelCallFacts(s, lvl, message, recordId, data, w);
    case LogErrorCall(error, context, recordId) =>
    case LogPerformanceCall(operation, duration, data) =>
    case LogSyncCall(level, message, recordId, data) =>
  }

  /** A level call is `log` at that level's name. */
  lemma LevelCallFacts(s: LoggerState, lvl: Levels.Level, message: string, recordId: Option<string>,
                       data: JsValue, w: World)
    ensures Apply(s, LevelCall(lvl, message, recordId, data), w)
            == Log(s, w, Levels.Name(lvl), message, recordId, data)
  {
  }

  datatype Session = Session(state: LoggerState, trace: seq<Event>)

  /** Runs the calls in order, the i-th against the i-th world. */
  function Run(s: LoggerState, calls: seq<Call>, worlds: seq<World>): Session
    requires |worlds| == |calls|
    decreases |calls|
  {
    if calls == [] then Session(s, [])
    else
      var first := Apply(s, calls[0], worlds[0]);
      var rest := Run(first.state, calls[1..], worlds[1..]);
      Session(rest.state, first.trace + rest.trace)
  }

  /**
   Every call but the last completes before the next is issued. `logSync`
   returns without waiting for its `log` to finish, so it may only come last:
   a call issued after it would run while that `log` is still suspended.
   */
  predicate Awaited(calls: seq<Call>) {
    forall i | 0 <= i < |calls| - 1 :: !calls[i].LogSyncCall?
  }

  lemma AwaitedTail(calls: seq<Call>)
    requires Awaited(calls) && calls != []
    ensures Awaited(calls[1..])
  {
    forall i | 0 <= i < |calls[1..]| - 1
      ensures !calls[1..][i].LogSyncCall?
    {
      assert calls[1..][i] == calls[i + 1];
    }
  }

  /** The requests a whole sequence of calls should send, in order. */
  function ExpectedAll(name: string, calls: seq<Call>): seq<Header>
    decreases |calls|
  {
    if calls == [] then []
    else Expected(name, calls[0]) + ExpectedAll(NameAfter(name, calls[0]), calls[1..])
  }

  /**
   Initialization happens at most once over any sequence of awaited calls
   (a `logSync` only as the last of them),
   exactly once from an uninitialized logger if some call reaches `init`,
   and an established transaction id never changes.
   */
  lemma {:induction false} RunInitializesOnce(s: LoggerState, calls: seq<Call>, worlds: seq<World>)
    requires |worlds| == |calls|
    requires Awaited(calls)
    ensures InitCalls(Run(s, calls, worlds).trace) <= 1
    ensures Run(s, calls, worlds).state.isInitialized
            <==> s.isInitialized || exists i :: 0 <= i < |calls| && Triggers(calls[i])
    ensures InitCalls(Run(s, calls, worlds).trace) == 1
            <==> !s.isInitialized && exists i :: 0 <= i < |calls| && Triggers(calls[i])
    ensures s.isInitialized ==> Run(s, calls, worlds).state.transactionId == s.transactionId
    ensures Valid(s) ==> Valid(Run(s, calls, worlds).state)
    decreases |calls|
  {
    if calls != [] {
      var first := Apply(s, calls[0], worlds[0]);
      ApplyState(s, calls[0], worlds[0]);
      ApplyTrace(s, calls[0], worlds[0]);
      AwaitedTail(calls);
      RunInitializesOnce(first.state, calls[1..], worlds[1..]);
      ProjectAppend(first.trace, Run(first.state, calls[1..], worlds[1..]).trace);
      if exists i :: 0 <= i < |calls| && Triggers(calls[i]) {
        var i :| 0 <= i < |calls| && Triggers(calls[i]);
        if i > 0 {
          assert Triggers(calls[1..][i - 1]);
        }
      }
      if exists j :: 0 <= j < |calls[1..]| && Triggers(calls[1..][j]) {
        var j :| 0 <= j < |calls[1..]| && Triggers(calls[1..][j]);
        assert Triggers(calls[j + 1]);
      }
    }
  }

  lemma {:induction false} HeadersAppend(a: seq<LogRequest>, b: seq<LogRequest>)
    ensures Headers(a + b) == Headers(a) + Headers(b)
    decreases |a|
  {
    if a == [] {
      assert a + b == b;
    } else {
      HeadersAppend(a[1..], b);
      var h := [Header(a[0].component, a[0].level, a[0].message, a[0].recordId)];
      assert (a + b)[0] == a[0];
      assert (a + b)[1..] == a[1..] + b;
      assert Headers(a + b) == h + Headers(a[1..] + b);
      assert Headers(a) == h + Headers(a[1..]);
    }
  }

  /**
   Sequentially awaited calls (a `logSync` only as the last of them) reach
   the endpoint in issuance order, one request
   per logging call, each tagged with the component name set before it.
   */
  lemma {:induction false} RunDeliversInOrder(s: LoggerState, calls: seq<Call>, worlds: seq<World>)
    requires |worlds| == |calls|
    requires Awaited(calls)
    ensures Headers(RemoteLogs(Run(s, calls, worlds).trace)) == ExpectedAll(s.componentName, calls)
    decreases |calls|
  {
    if calls != [] {
      var first := Apply(s, calls[0], worlds[0]);
      var rest := Run(first.state, calls[1..], worlds[1..]);
      ApplyTrace(s, calls[0], worlds[0]);
      ApplyState(s, calls[0], worlds[0]);
      assert first.state.componentName == NameAfter(s.componentName, calls[0]);
      AwaitedTail(calls);
      RunDeliversInOrder(first.state, calls[1..], worlds[1..]);
      assert Run(s, calls, worlds).trace == first.trace + rest.trace;
      ProjectAppend(first.trace, rest.trace);
      HeadersAppend(RemoteLogs(first.trace), RemoteLogs(rest.trace));
    }
  }
}
